=== FILE: README.md ===
# NSIGII trinary codec, modelled in Dafny

NSIGII is a small "trinary" symbolic codec with two implementations, one
in C and one in Python. A message is a sequence of θ states: YES, NO,
MAYBE, and in C also EPSILON ("channel clear"). In C each symbol carries
an entropy annotation, and the message also holds a parallel
`entropy_bits` array. In Python the states carry nothing; the message
holds one `entropy_bits` list. `encode_sparse` annotates every MAYBE
with a fresh entropy measurement. `calculate_work` adds a tenth of the
annotations to a fixed base work. `apply_isomorphism` derives the echo
by swapping YES and NO and keeping MAYBE ("sacred"). `verify_echo`
checks, pair by pair, that the echo is a valid conjugate of the sent
message.

The project has four modules:

- `Numeric` (`numeric.dfy`) holds the byte type, sums and `Abs`.
- `NsigiiC` (`nsigii_c.dfy`) models `nsiggi.c`.
- `NsigiiPy` (`nsigii_py.dfy`) models `nsiggi.py`.
- `Agreement` (`agreement.dfy`) compares the two implementations on
  messages without EPSILON. They agree on the transform of each state,
  on the accepted state pairs, and on the entropy bits and work of a
  freshly encoded message. They disagree on the echo's annotations: C
  copies them, Python starts empty. So an encoded message can verify
  against its echo in C and fail Python's work tolerance;
  `EchoVerdictsDiffer` shows this for four MAYBEs and any sampler
  values summing to at least 5.0 bits, which the Python sampler can
  produce.

Every operation is a pure function:

- The encoder, histogram and work loops are recursion over the prefix
  already processed. The function's result is the loop's state after its
  last iteration.
- The verification loops recurse on the pairs still to be checked. In C
  that is the index `i` onward; in Python it is the rest of the zipped
  lists.
- The transforms are sequence comprehensions, one element per index.

The entropy sampler is an oracle `draw: nat -> real`. `draw(k)` is the
value returned by the k-th sampler call within one encoding. With the
oracle fixed, the encoder is deterministic: the model states which
positions are sampled, which call each one receives, the length of
`entropy_bits` and the per-symbol sync.

For C `measure_channel_entropy`, two things are parameters:

- the bytes `getrandom` delivered for its 64-byte request;
- the Shannon step over the histogram (`shannon`).

Reals are exact mathematical reals. `base_work = force * distance * cos(30°)` is
an opaque real parameter. Python's final work-tolerance comparison is a
predicate parameter `tolerable`.

The model follows what the C code does in these places:

- `measure_channel_entropy` always requests 64 bytes, whatever
  `num_samples` it is given.
- When `getrandom` delivers fewer than 64 bytes, it returns the sentinel
  -1.0 instead of returning an error. `encode_sparse` stores that value
  as the MAYBE's entropy like any other, and `calculate_work` adds it in.
  `MeasureChannelEntropy` states the sentinel. `EncodeSparse` shows that
  the stored value is the sampler's value, whatever it is.
- `calculate_work` and `apply_isomorphism` read `entropy_bits[i]` for
  every index below `length`. On a message that was never encoded that
  array is NULL. The model therefore requires `HasBits()`: at least
  `length` entropy bits.

## Model

| member | source | states |
|---|---|---|
| NsigiiC.StateOfCode | Nsigii_EchoRelayServer/nsiggi.c:8-13 | reading a two-bit register value back gives the state whose register value it is |
| NsigiiC.CodeRoundTrip | Nsigii_EchoRelayServer/nsiggi.c:8-13 | the four states have distinct register values below 4, so the register determines the state |
| NsigiiC.Histogram | Nsigii_EchoRelayServer/nsiggi.c:38-41 | the histogram has 256 buckets, and bucket v holds the number of occurrences of byte v in the buffer |
| NsigiiC.HistogramTotal | Nsigii_EchoRelayServer/nsiggi.c:38-41 | the bucket counts sum to the buffer length, so to exactly 64 for the fixed window |
| NsigiiC.MeasureChannelEntropy | Nsigii_EchoRelayServer/nsiggi.c:27-50 | a short read from the randomness source yields -1.0; a full 64-byte read yields the Shannon step applied to the 256 byte counts of that window |
| NsigiiC.MeasureIgnoresSampleCount | Nsigii_EchoRelayServer/nsiggi.c:27-41 | the requested sample count never changes the result; a full window is histogrammed over exactly 64 bytes; a short read gives -1.0 |
| NsigiiC.EncodeSymbols | Nsigii_EchoRelayServer/nsiggi.c:57-71 | after the loop: one bit per symbol, and states unchanged; a non-MAYBE (YES, NO or EPSILON) gets bit 0.0 and keeps its entropy; the MAYBE at index i gets sampler call number "MAYBEs before i" in both its bit and its entropy |
| NsigiiC.EncodeSparse | Nsigii_EchoRelayServer/nsiggi.c:54-72 | `entropy_bits` is replaced by a new array of `length` entries, and states are unchanged; non-MAYBE positions get 0.0; each MAYBE gets its own sampler value in both `entropy_bits[i]` and `symbols[i].entropy` |
| NsigiiC.EachMaybeSampledOnce | Nsigii_EchoRelayServer/nsiggi.c:57-61 | two MAYBE positions never share a sampler call, and every call index is below the total number of MAYBEs |
| NsigiiC.EncodeSparseSyncs | Nsigii_EchoRelayServer/nsiggi.c:55-71 | once encoded, `entropy_bits[i] == symbols[i].entropy` holds at every index exactly when every non-MAYBE symbol carried entropy 0.0 |
| NsigiiC.EncodeSparseIdempotent | Nsigii_EchoRelayServer/nsiggi.c:54-72 | encoding an encoded message again with the same sampler values changes nothing |
| NsigiiC.EntropyCost | Nsigii_EchoRelayServer/nsiggi.c:79-82 | adding `bits[i] * 0.1` one index at a time gives a tenth of the sum of the bits |
| NsigiiC.CalculateWork | Nsigii_EchoRelayServer/nsiggi.c:75-85 | the work is the base work plus a tenth of the sum of the first `length` entropy bits |
| NsigiiC.WorkOfEncodedBound | Nsigii_EchoRelayServer/nsiggi.c:54-85 | with sampler values in [0, 8], the work of an encoded message lies between the base work and the base work plus 0.8 per MAYBE |
| NsigiiC.Conjugate | Nsigii_EchoRelayServer/nsiggi.c:94-106 | YES maps to NO and NO to YES; MAYBE maps to MAYBE and EPSILON to EPSILON; each result comes from exactly one state |
| NsigiiC.ApplyIsomorphism | Nsigii_EchoRelayServer/nsiggi.c:88-110 | the echo has the source's length; each state is conjugated; `entropy` and `entropy_bits` are copied unchanged at every index |
| NsigiiC.IsomorphismInvolution | Nsigii_EchoRelayServer/nsiggi.c:94-108 | applying the transform twice restores the symbols and the first `length` bits, for all four states |
| NsigiiC.IsomorphismKeepsSync | Nsigii_EchoRelayServer/nsiggi.c:107-108 | the echo of a message whose two annotations agree has agreeing annotations too |
| NsigiiC.WorkOfEcho | Nsigii_EchoRelayServer/nsiggi.c:75-110 | the echo's work equals the source's work, because its entropy bits are copied |
| NsigiiC.ScanPairs | Nsigii_EchoRelayServer/nsiggi.c:116-133 | the loop from index i returns 1 exactly when every remaining pair is (MAYBE,MAYBE), (YES,NO) or (NO,YES), and otherwise 0 |
| NsigiiC.VerifyEcho | Nsigii_EchoRelayServer/nsiggi.c:113-134 | the result is 0 or 1; it is 0 when the lengths differ; it is 1 exactly when the lengths agree and every position pair is accepted |
| NsigiiC.VerifyEchoRejects | Nsigii_EchoRelayServer/nsiggi.c:116-130 | an EPSILON on either side, or a MAYBE facing a non-MAYBE, makes verification return 0 |
| NsigiiC.ConjugatePairValid | Nsigii_EchoRelayServer/nsiggi.c:94-130 | a state is accepted against its own conjugate exactly when it is not EPSILON |
| NsigiiC.EchoVerifiesIffNoEpsilon | Nsigii_EchoRelayServer/nsiggi.c:88-134 | `verify_echo(m, apply_isomorphism(m))` is 1 exactly when m holds no EPSILON |
| NsigiiC.EchoVerifiesIffConjugate | Nsigii_EchoRelayServer/nsiggi.c:88-134 | soundness and completeness: an echo verifies exactly when it has the sent length, the sent message holds no EPSILON, and each echoed state is the conjugate of the sent one |
| NsigiiC.TruncatedEchoFails | Nsigii_EchoRelayServer/nsiggi.c:114 | an echo cut to fewer symbols than the sent message is rejected |
| NsigiiC.DemoScenario | Nsigii_EchoRelayServer/nsiggi.c:136-164 | for YES, MAYBE, NO, MAYBE: the bits are [0, e1, 0, e2], in sync with the symbols; the work is base + (e1 + e2)/10; the echo is NO, MAYBE, YES, MAYBE and verifies |
| NsigiiPy.Value | Nsigii_EchoRelayServer/nsiggi.py:6-9 | the enumeration values lie in -1..1, with -1 only for MAYBE and 1 only for YES |
| NsigiiPy.NewMessage | Nsigii_EchoRelayServer/nsiggi.py:12-14 | a new message holds the given states and nothing measured, so its work is exactly the base work |
| NsigiiPy.Pattern | Nsigii_EchoRelayServer/nsiggi.py:38-44 | every matrix row is four bits |
| NsigiiPy.StateOfPattern | Nsigii_EchoRelayServer/nsiggi.py:38-44 | a row that decodes to a state is exactly that state's pattern |
| NsigiiPy.PatternRoundTrip | Nsigii_EchoRelayServer/nsiggi.py:38-44 | each state's row decodes back to that state, so the three rows are distinct |
| NsigiiPy.PatternRows | Nsigii_EchoRelayServer/nsiggi.py:33-44 | the loop appends one row per state: [1,0,1,0] for MAYBE, [1,1,0,0] for YES, [0,0,1,1] for NO |
| NsigiiPy.SampledBits | Nsigii_EchoRelayServer/nsiggi.py:34-45 | the loop appends one value per state: 0.0 for YES and NO; the MAYBE at index i gets sampler call number "MAYBEs before i" |
| NsigiiPy.EncodeSparse | Nsigii_EchoRelayServer/nsiggi.py:30-46 | exactly `len(data)` values are appended after the existing entries, which stay unchanged; a MAYBE gets its own sampler value; states are unchanged; one pattern row per state |
| NsigiiPy.MatrixDeterminesData | Nsigii_EchoRelayServer/nsiggi.py:33-46 | the returned matrix decodes, row by row, to the message's states |
| NsigiiPy.EncodeFreshMessage | Nsigii_EchoRelayServer/nsiggi.py:12-45 | on a new message, `len(entropy_bits) == len(data)` afterwards, with the sampler value at MAYBE positions and 0.0 elsewhere |
| NsigiiPy.Conjugate | Nsigii_EchoRelayServer/nsiggi.py:64-70 | YES maps to NO, NO to YES and MAYBE to MAYBE, and each result comes from exactly one state |
| NsigiiPy.ApplyIsomorphism | Nsigii_EchoRelayServer/nsiggi.py:61-71 | the echo has the same length and conjugated states, and, being newly constructed, an empty entropy list |
| NsigiiPy.IsomorphismInvolution | Nsigii_EchoRelayServer/nsiggi.py:61-71 | transforming twice restores the states, but leaves an empty entropy list |
| NsigiiPy.PairsPass | Nsigii_EchoRelayServer/nsiggi.py:78-89 | the zipped loop passes exactly when every pair is (MAYBE,MAYBE), (YES,NO) or (NO,YES) |
| NsigiiPy.VerifyEcho | Nsigii_EchoRelayServer/nsiggi.py:73-97 | False on a length mismatch or a rejected pair; otherwise the tolerance predicate decides, on the absolute difference of the two works |
| NsigiiPy.PairsPassIffConjugate | Nsigii_EchoRelayServer/nsiggi.py:61-89 | an echo of the same length passes the state-pair check exactly when its states are the conjugates of the sent states |
| NsigiiPy.EchoPassesPairCheck | Nsigii_EchoRelayServer/nsiggi.py:64-89 | every message passes the state-pair check against its own echo, because the enumeration has no fourth state |
| NsigiiPy.VerifyEchoOfIsomorphism | Nsigii_EchoRelayServer/nsiggi.py:54-97 | against its own echo, a message is judged by the tolerance alone, on a tenth of the absolute sum of its entropy list |
| NsigiiPy.UnsampledEchoSameWork | Nsigii_EchoRelayServer/nsiggi.py:54-71 | a message whose entropy list is all 0.0 has the same work as its echo |
| Agreement.ConjugateAndPairsAgree | Nsigii_EchoRelayServer/nsiggi.py:61-89 | the Python and C transforms map each shared state alike, and the two verifiers accept the same state pairs |
| Agreement.EncodersAgree | Nsigii_EchoRelayServer/nsiggi.py:30-59 | given the same sampler values, Python and C encode a new message into the same entropy bits and the same work |
| Agreement.EchoesAgree | Nsigii_EchoRelayServer/nsiggi.c:88-134 | on a message of Python states, the C echo has the states of the Python echo, and C verification accepts it |
| Agreement.FourMaybesVerifyInC | Nsigii_EchoRelayServer/nsiggi.c:54-134 | four MAYBEs verify against their C echo, which copies the entropy bits, whatever the sampler returns |
| Agreement.FourMaybesFailInPython | Nsigii_EchoRelayServer/nsiggi.py:30-97 | when the four samples sum to at least 5.0 bits, the same four MAYBEs fail Python's `< 0.5` work tolerance against their echo, because the Python echo has no entropy and the difference is a tenth of that sum |
| Agreement.EchoVerdictsDiffer | Nsigii_EchoRelayServer/nsiggi.py:16-97 | for four MAYBEs and any sampler values summing to at least 5.0 bits, which the Python sampler can produce, the C verifier accepts the echo and the Python verifier rejects it |

## Left out

- The randomness sources are left out: `getrandom` in C and `secrets.randbits` in Python. The C bytes, and the sampler as seen by the encoders, are parameters.
- The Shannon-entropy `log2` step is left out in both languages, because it is floating point. In C it is the parameter `shannon`. The Python `measure_channel_entropy` as a whole is the encoder's oracle.
- MeasureChannelEntropy: the entropy bound of [0, 8] bits for a 64-byte window is not stated, because it depends on the `log2` arithmetic.
- IEEE double rounding is not modelled; reals are exact. C adds `bits[i] * 0.1` term by term, while Python scales the sum once. These are equal on reals but may differ by rounding in the source.
- `cos(30°)` and `base_work` are not modelled; `base_work` is an opaque real parameter.
- The sampler's range is not part of the oracle `draw`. The Python sampler sums `len(data)` terms of at most about 0.53 each, and the C Shannon step is at most 8 bits; neither bound is a hypothesis of the lemmas. `WorkOfEncodedBound` assumes the C range [0, 8], and `EchoVerdictsDiffer` assumes four samples summing to at least 5.0.
- NsigiiPy.VerifyEcho: the final `work_delta < 0.5` comparison is the predicate parameter `tolerable`, because it is a float comparison.
- C enum fields holding an integer outside the four declared states are not modelled. Every operation treats such a value as it treats EPSILON.
- `malloc`/`free`, the `perror("getrandom")` message, the `printf`/`print` output and the demo drivers are not modelled, apart from the C scenario in `DemoScenario`. The Python bit-rate computation is left out too.
- The Python `calculate_work` (`NsigiiPy.CalculateWork`) has no contract of its own. `VerifyEchoOfIsomorphism`, `UnsampledEchoSameWork` and `Agreement.EncodersAgree` state what it computes.
- NsigiiC.CalculateWork and NsigiiC.ApplyIsomorphism require `HasBits()`. The C code reads a NULL `entropy_bits` on a message that was never encoded, which is undefined behaviour, so the model does not describe that case.
- `Code`, `StateOfCode` and `NsigiiPy.Value` record the declared enum values only. No operation of the codec computes with them.

=== FILE: agreement.dfy ===
/** The two implementations side by side: the Python states are the C
    states without EPSILON. On such messages the C and the Python
    operations compute the same conjugate states and pair checks, and the
    same entropy bits and work for a freshly encoded message. The echoes
    differ in their annotations: C copies the entropy bits, Python starts
    with none, so the two verdicts on an echo can differ. */
module Agreement {
  import opened Numeric
  import C = NsigiiC
  import Py = NsigiiPy

  /** A Python state as the C state of the same name. */
  function Embed(s: Py.State): (c: C.State)
    ensures c != C.Epsilon
  {
    match s
    case Yes => C.Yes
    case No => C.No
    case Maybe => C.Maybe
  }

  /** A Python state list as C symbols with 0.0 entropies, as both
      drivers construct them. */
  function EmbedData(data: seq<Py.State>): (syms: seq<C.Symbol>)
    ensures |syms| == |data|
  {
    seq(|data|, i requires 0 <= i < |data| => C.Symbol(Embed(data[i]), 0.0))
  }

  /** Both transforms map each state the same way, and both verifiers
      accept the same pairs. */
  lemma ConjugateAndPairsAgree(s: Py.State, e: Py.State)
    ensures C.Conjugate(Embed(s)) == Embed(Py.Conjugate(s))
    ensures C.ValidPair(Embed(s), Embed(e)) <==> Py.ValidPair(s, e)
  {
  }

  lemma {:induction false} CountMaybeAgrees(data: seq<Py.State>)
    ensures C.CountMaybe(EmbedData(data)) == Py.CountMaybe(data)
  {
    if data != [] {
      var n := |data| - 1;
      assert EmbedData(data)[..n] == EmbedData(data[..n]);
      CountMaybeAgrees(data[..n]);
    }
  }

  lemma EmbedPrefix(data: seq<Py.State>, i: nat)
    requires i <= |data|
    ensures EmbedData(data)[..i] == EmbedData(data[..i])
  {
  }

  /** Both encoders give the MAYBE at index i the same sampler call. */
  lemma CallIndexAgrees(data: seq<Py.State>, i: nat)
    requires i <= |data|
    ensures C.CountMaybe(EmbedData(data)[..i]) == Py.CountMaybe(data[..i])
  {
    EmbedPrefix(data, i);
    CountMaybeAgrees(data[..i]);
  }

  /** C and Python store the same bit at index i. */
  lemma BitAgrees(data: seq<Py.State>, draw: nat -> real, i: nat)
    requires i < |data|
    ensures C.EncodeSparse(C.Message(EmbedData(data), []), draw).entropyBits[i] ==
            Py.EncodeSparse(Py.NewMessage(data), draw).message.entropyBits[i]
  {
    var syms := EmbedData(data);
    var cBits := C.EncodeSparse(C.Message(syms, []), draw).entropyBits;
    var pyBits := Py.EncodeSparse(Py.NewMessage(data), draw).message.entropyBits;
    CallIndexAgrees(data, i);
    if data[i] == Py.Maybe {
      assert syms[i].state == C.Maybe;
      assert cBits[i] == draw(C.CountMaybe(syms[..i]));
      assert pyBits[0 + i] == draw(Py.CountMaybe(data[..i]));
    } else {
      assert syms[i].state != C.Maybe;
      assert cBits[i] == 0.0;
      assert pyBits[0 + i] == 0.0;
    }
  }

  /** Encoding a freshly built message with the same sampler values gives
      the same entropy bits in C and in Python, hence the same work. */
  lemma EncodersAgree(data: seq<Py.State>, draw: nat -> real, baseWork: real)
    ensures C.EncodeSparse(C.Message(EmbedData(data), []), draw).entropyBits ==
            Py.EncodeSparse(Py.NewMessage(data), draw).message.entropyBits
    ensures C.EncodeSparse(C.Message(EmbedData(data), []), draw).HasBits()
    ensures C.CalculateWork(C.EncodeSparse(C.Message(EmbedData(data), []), draw), baseWork) ==
            Py.CalculateWork(Py.EncodeSparse(Py.NewMessage(data), draw).message, baseWork)
  {
    var cBits := C.EncodeSparse(C.Message(EmbedData(data), []), draw).entropyBits;
    var pyBits := Py.EncodeSparse(Py.NewMessage(data), draw).message.entropyBits;
    forall i | 0 <= i < |data|
      ensures cBits[i] == pyBits[i]
    {
      BitAgrees(data, draw, i);
    }
    assert cBits == pyBits;
    assert cBits[..|data|] == cBits;
  }

  /** The echo of an embedded message is the embedding of the Python echo,
      and the C verifier accepts it, as the Python state-pair check does. */
  lemma EchoesAgree(data: seq<Py.State>)
    ensures C.ApplyIsomorphism(C.Message(EmbedData(data), EmbedBits(data))).States() ==
            C.Message(EmbedData(Py.ApplyIsomorphism(Py.NewMessage(data)).data), []).States()
    ensures C.VerifyEcho(C.Message(EmbedData(data), EmbedBits(data)),
                         C.ApplyIsomorphism(C.Message(EmbedData(data), EmbedBits(data)))) == 1
  {
    var m := C.Message(EmbedData(data), EmbedBits(data));
    C.EchoVerifiesIffNoEpsilon(m);
  }

  /** Zero entropy bits for a message of `data`'s length, so that the C
      transform may read them. */
  function EmbedBits(data: seq<Py.State>): (bits: seq<real>)
    ensures |bits| == |data|
  {
    seq(|data|, _ => 0.0)
  }

  /** Four MAYBEs, as a Python message and as the C message of the same states. */
  function FourMaybes(): (data: seq<Py.State>)
    ensures |data| == 4 && forall i :: 0 <= i < 4 ==> data[i] == Py.Maybe
  {
    [Py.Maybe, Py.Maybe, Py.Maybe, Py.Maybe]
  }

  /** In C, four MAYBEs verify against their echo, whatever the sampler returns. */
  lemma FourMaybesVerifyInC(draw: nat -> real)
    ensures var cm := C.EncodeSparse(C.Message(EmbedData(FourMaybes()), []), draw);
      C.VerifyEcho(cm, C.ApplyIsomorphism(cm)) == 1
  {
    var m := C.Message(EmbedData(FourMaybes()), []);
    var cm := C.EncodeSparse(m, draw);
    forall i | 0 <= i < |cm.symbols| ensures cm.symbols[i].state != C.Epsilon {
      assert cm.States()[i] == m.States()[i];
    }
    C.EchoVerifiesIffNoEpsilon(cm);
  }

  /** In Python, four MAYBEs whose samples sum to at least 5.0 bits fail
      the work tolerance against their echo: the difference is a tenth of
      that sum, at least 0.5. */
  lemma FourMaybesFailInPython(draw: nat -> real)
    requires draw(0) + draw(1) + draw(2) + draw(3) >= 5.0
    ensures var pm := Py.EncodeSparse(Py.NewMessage(FourMaybes()), draw).message;
      !Py.VerifyEcho(pm, Py.ApplyIsomorphism(pm), 0.0, x => x < 0.5)
  {
    var d := FourMaybes();
    var pm := Py.EncodeSparse(Py.NewMessage(d), draw).message;
    assert Py.CountMaybe(d[..0]) == 0;
    assert Py.CountMaybe(d[..1]) == 1 by { assert d[..1][..0] == d[..0]; }
    assert Py.CountMaybe(d[..2]) == 2 by { assert d[..2][..1] == d[..1]; }
    assert Py.CountMaybe(d[..3]) == 3 by { assert d[..3][..2] == d[..2]; }
    var b := pm.entropyBits;
    assert b == [draw(0), draw(1), draw(2), draw(3)];
    assert Sum(b) == draw(0) + draw(1) + draw(2) + draw(3) by {
      assert b[1..][1..][1..][1..] == [];
      assert Sum(b[1..][1..][1..]) == draw(3);
      assert Sum(b[1..][1..]) == draw(2) + draw(3);
      assert Sum(b[1..]) == draw(1) + draw(2) + draw(3);
    }
    Py.VerifyEchoOfIsomorphism(pm, 0.0, x => x < 0.5);
  }

  /** Where the two implementations part: the C echo copies the entropy
      bits, the Python echo starts with none. For any sampler values
      summing to at least 5.0 bits over four MAYBEs, the message verifies
      in C but fails Python's work tolerance. The Python sampler produces
      such values: for a four-state message one sample can approach 2.12
      bits (each noise byte contributes up to about 0.53). */
  lemma EchoVerdictsDiffer(draw: nat -> real)
    requires draw(0) + draw(1) + draw(2) + draw(3) >= 5.0
    ensures var cm := C.EncodeSparse(C.Message(EmbedData(FourMaybes()), []), draw);
      C.VerifyEcho(cm, C.ApplyIsomorphism(cm)) == 1
    ensures var pm := Py.EncodeSparse(Py.NewMessage(FourMaybes()), draw).message;
      !Py.VerifyEcho(pm, Py.ApplyIsomorphism(pm), 0.0, x => x < 0.5)
  {
    FourMaybesVerifyInC(draw);
    FourMaybesFailInPython(draw);
  }
}

=== FILE: nsigii_c.dfy ===
/** The C implementation of the NSIGII trinary codec (nsiggi.c): the
    two-bit θ state, messages with their per-symbol entropy annotations,
    the entropy histogram, the sparse encoder, the work metric, the
    conjugate ("isomorphism") transform and the echo verifier.

    The operating-system randomness and the floating-point Shannon step
    are parameters: the encoder receives an oracle `draw`, where `draw(k)`
    is the value returned by the k-th call of the entropy sampler during
    one encoding. */
module NsigiiC {
  import opened Numeric

  /** The θ state held in a two-bit register. */
  datatype State = No | Yes | Maybe | Epsilon

  /** The register value of each state: NO 0b00, YES 0b01, MAYBE 0b10,
      EPSILON 0b11. This records the enum declaration only: the code never
      computes with these values, it only compares enumerators. */
  function Code(s: State): nat
  {
    match s
    case No => 0
    case Yes => 1
    case Maybe => 2
    case Epsilon => 3
  }

  /** Reads a two-bit register back as a state (a record of the
      declaration; no operation of the codec uses it). */
  function StateOfCode(c: nat): (s: State)
    requires c < 4
    ensures Code(s) == c
  {
    if c == 0 then No else if c == 1 then Yes else if c == 2 then Maybe else Epsilon
  }

  /** Every state has its own register value, so the register determines the state. */
  lemma CodeRoundTrip(s: State)
    ensures Code(s) < 4
    ensures StateOfCode(Code(s)) == s
  {
  }

  datatype Symbol = Symbol(state: State, entropy: real)

  /** `symbols` has the struct's `length` entries. Before encoding,
      `entropy_bits` is NULL, modelled as the empty sequence. */
  datatype Message = Message(symbols: seq<Symbol>, entropyBits: seq<real>)
  {
    /** `entropy_bits[i]` may be read at every index below `length`. */
    predicate HasBits()
    {
      |entropyBits| >= |symbols|
    }

    /** The two annotations agree position by position. */
    predicate Synced()
    {
      && |entropyBits| == |symbols|
      && forall i :: 0 <= i < |symbols| ==> entropyBits[i] == symbols[i].entropy
    }

    function States(): (ss: seq<State>)
      ensures |ss| == |symbols|
    {
      seq(|symbols|, i requires 0 <= i < |symbols| => symbols[i].state)
    }
  }

  // ---------------------------------------------------------------------
  // Entropy measurement

  /** The sampler always reads a fixed window of this many bytes. */
  const Window: nat := 64

  /** Byte-frequency histogram over all 256 byte values, built one byte at
      a time in buffer order. */
  function Histogram(buffer: seq<byte>): (freq: seq<nat>)
    ensures |freq| == 256
    ensures forall v :: 0 <= v < 256 ==> freq[v] == multiset(buffer)[v as byte]
  {
    if buffer == [] then seq(256, _ => 0)
    else
      var n := |buffer| - 1;
      var h := Histogram(buffer[..n]);
      var b := buffer[n] as int;
      assert buffer == buffer[..n] + [buffer[n]];
      h[b := h[b] + 1]
  }

  /** Every byte of the buffer lands in exactly one bucket. */
  lemma {:induction false} HistogramTotal(buffer: seq<byte>)
    ensures SumNat(Histogram(buffer)) == |buffer|
  {
    if buffer == [] {
      SumNatZeros(256);
    } else {
      var n := |buffer| - 1;
      var h := Histogram(buffer[..n]);
      var b := buffer[n] as int;
      HistogramTotal(buffer[..n]);
      SumNatUpdate(h, b, h[b] + 1);
    }
  }

  /** `measure_channel_entropy`. `supplied` is what the randomness source
      delivered for a request of `Window` bytes; `shannon` is the
      floating-point Shannon step over the histogram. The requested
      `numSamples` is not consulted. */
  function MeasureChannelEntropy(numSamples: nat, supplied: seq<byte>, shannon: seq<nat> -> real): (e: real)
    ensures |supplied| != Window ==> e == -1.0
    ensures |supplied| == Window ==>
              e == shannon(seq(256, v requires 0 <= v < 256 => multiset(supplied)[v as byte]))
  {
    if |supplied| != Window then -1.0
    else
      assert Histogram(supplied) == seq(256, v requires 0 <= v < 256 => multiset(supplied)[v as byte]);
      shannon(Histogram(supplied))
  }

  /** The sample count passed in has no effect; a full window is always
      histogrammed over exactly 64 bytes, and a short read yields -1.0. */
  lemma MeasureIgnoresSampleCount(n1: nat, n2: nat, supplied: seq<byte>, shannon: seq<nat> -> real)
    ensures MeasureChannelEntropy(n1, supplied, shannon) == MeasureChannelEntropy(n2, supplied, shannon)
    ensures |supplied| == Window ==> SumNat(Histogram(supplied)) == 64
    ensures |supplied| < Window ==> MeasureChannelEntropy(n1, supplied, shannon) == -1.0
  {
    HistogramTotal(supplied);
  }

  // ---------------------------------------------------------------------
  // Sparse encoding

  /** Number of MAYBE symbols, counted from the back. */
  function CountMaybe(syms: seq<Symbol>): nat
  {
    if syms == [] then 0
    else CountMaybe(syms[..|syms| - 1]) + (if syms[|syms| - 1].state == Maybe then 1 else 0)
  }

  /** The encoding loop after it has processed all of `syms`: the symbols
      (with MAYBE entropies filled in) and the freshly allocated
      `entropy_bits`. A MAYBE at index i is the sampler's call number
      `CountMaybe(syms[..i])`. */
  function EncodeSymbols(syms: seq<Symbol>, draw: nat -> real): (enc: Message)
    ensures |enc.symbols| == |syms| && |enc.entropyBits| == |syms|
    ensures forall i :: 0 <= i < |syms| ==> enc.symbols[i].state == syms[i].state
    ensures forall i :: 0 <= i < |syms| && syms[i].state != Maybe ==>
              enc.entropyBits[i] == 0.0 && enc.symbols[i].entropy == syms[i].entropy
    ensures forall i :: 0 <= i < |syms| && syms[i].state == Maybe ==>
              enc.entropyBits[i] == draw(CountMaybe(syms[..i])) && enc.symbols[i].entropy == enc.entropyBits[i]
  {
    if syms == [] then Message([], [])
    else
      var n := |syms| - 1;
      var done := EncodeSymbols(syms[..n], draw);
      assert forall i :: 0 <= i < n ==> syms[..n][..i] == syms[..i];
      var s := syms[n];
      if s.state == Maybe then
        var e := draw(CountMaybe(syms[..n]));
        Message(done.symbols + [Symbol(Maybe, e)], done.entropyBits + [e])
      else
        // YES, and NO together with every other state, store 0.0
        Message(done.symbols + [s], done.entropyBits + [0.0])
  }

  /** `encode_sparse`: a new `entropy_bits` of `length` entries replaces
      whatever the message held; each MAYBE gets its own sampler call. */
  function EncodeSparse(msg: Message, draw: nat -> real): (enc: Message)
    ensures |enc.symbols| == |msg.symbols| && |enc.entropyBits| == |msg.symbols|
    ensures enc.States() == msg.States()
    ensures forall i :: 0 <= i < |msg.symbols| && msg.symbols[i].state != Maybe ==>
              enc.entropyBits[i] == 0.0 && enc.symbols[i].entropy == msg.symbols[i].entropy
    ensures forall i :: 0 <= i < |msg.symbols| && msg.symbols[i].state == Maybe ==>
              enc.entropyBits[i] == draw(CountMaybe(msg.symbols[..i])) && enc.symbols[i].entropy == enc.entropyBits[i]
  {
    EncodeSymbols(msg.symbols, draw)
  }

  /** Counting MAYBEs over a longer prefix never gives fewer. */
  lemma {:induction false} CountMaybeMonotone(syms: seq<Symbol>, i: nat, j: nat)
    requires i <= j <= |syms|
    ensures CountMaybe(syms[..i]) <= CountMaybe(syms[..j])
    ensures i < j && syms[i].state == Maybe ==> CountMaybe(syms[..i]) < CountMaybe(syms[..j])
    decreases j - i
  {
    if i < j {
      CountMaybeMonotone(syms, i, j - 1);
      assert syms[..j][..j - 1] == syms[..j - 1];
      if i == j - 1 {
        assert syms[..j] == syms[..i] + [syms[i]];
      }
    }
  }

  /** Distinct MAYBE positions receive distinct sampler calls, numbered
      below the total number of MAYBEs: no measurement is shared. */
  lemma EachMaybeSampledOnce(syms: seq<Symbol>, i: nat, j: nat)
    requires i < j < |syms|
    requires syms[i].state == Maybe && syms[j].state == Maybe
    ensures CountMaybe(syms[..i]) < CountMaybe(syms[..j]) < CountMaybe(syms)
  {
    CountMaybeMonotone(syms, i, j);
    CountMaybeMonotone(syms, j, |syms|);
    assert syms[..|syms|] == syms;
  }

  /** Once encoded, a message is in sync (`entropy_bits[i] ==
      symbols[i].entropy` everywhere) exactly when every non-MAYBE symbol
      carried entropy 0.0, as the messages built in the driver do. */
  lemma EncodeSparseSyncs(msg: Message, draw: nat -> real)
    ensures EncodeSparse(msg, draw).Synced() <==>
              forall i :: 0 <= i < |msg.symbols| && msg.symbols[i].state != Maybe ==> msg.symbols[i].entropy == 0.0
  {
  }

  /** Encoding again with the same sampler values changes nothing. */
  lemma EncodeSparseIdempotent(msg: Message, draw: nat -> real)
    ensures EncodeSparse(EncodeSparse(msg, draw), draw) == EncodeSparse(msg, draw)
  {
    var e1 := EncodeSparse(msg, draw);
    var e2 := EncodeSparse(e1, draw);
    assert forall i :: 0 <= i <= |msg.symbols| ==> CountMaybe(e1.symbols[..i]) == CountMaybe(msg.symbols[..i]) by {
      forall i | 0 <= i <= |msg.symbols|
        ensures CountMaybe(e1.symbols[..i]) == CountMaybe(msg.symbols[..i])
      {
        CountMaybeSameStates(e1.symbols[..i], msg.symbols[..i]);
      }
    }
    assert e2.symbols == e1.symbols;
    assert e2.entropyBits == e1.entropyBits;
  }

  /** CountMaybe only looks at states. */
  lemma {:induction false} CountMaybeSameStates(a: seq<Symbol>, b: seq<Symbol>)
    requires |a| == |b|
    requires forall i :: 0 <= i < |a| ==> a[i].state == b[i].state
    ensures CountMaybe(a) == CountMaybe(b)
  {
    if a != [] {
      CountMaybeSameStates(a[..|a| - 1], b[..|b| - 1]);
    }
  }

  // ---------------------------------------------------------------------
  // Work

  /** The loop's running `entropy_cost` after adding `bits[i] * 0.1` for
      every i in order. */
  function EntropyCost(bits: seq<real>): (c: real)
    ensures c == Sum(bits) * 0.1
  {
    if bits == [] then 0.0
    else
      var n := |bits| - 1;
      SumSnoc(bits);
      EntropyCost(bits[..n]) + bits[n] * 0.1
  }

  /** `calculate_work`: `baseWork` is `force * distance * cos(30°)`, kept
      opaque; the entropy annotations of the first `length` positions are
      added at a tenth of their value. */
  function CalculateWork(msg: Message, baseWork: real): (w: real)
    requires msg.HasBits()
    ensures w == baseWork + Sum(msg.entropyBits[..|msg.symbols|]) * 0.1
  {
    baseWork + EntropyCost(msg.entropyBits[..|msg.symbols|])
  }

  /** With sampler values in [0, 8] bits, encoding adds between 0 and 0.8
      per MAYBE to the base work, and nothing for YES, NO or EPSILON. */
  lemma {:induction false} EncodedBitsBound(syms: seq<Symbol>, draw: nat -> real)
    requires forall k: nat :: 0.0 <= draw(k) <= 8.0
    ensures 0.0 <= Sum(EncodeSymbols(syms, draw).entropyBits) <= 8.0 * (CountMaybe(syms) as real)
  {
    if syms != [] {
      var n := |syms| - 1;
      var bits := EncodeSymbols(syms, draw).entropyBits;
      var prev := EncodeSymbols(syms[..n], draw).entropyBits;
      EncodedBitsBound(syms[..n], draw);
      assert bits[..n] == prev;
      SumSnoc(bits);
    }
  }

  lemma WorkOfEncodedBound(msg: Message, draw: nat -> real, baseWork: real)
    requires forall k: nat :: 0.0 <= draw(k) <= 8.0
    ensures EncodeSparse(msg, draw).HasBits()
    ensures baseWork <= CalculateWork(EncodeSparse(msg, draw), baseWork)
              <= baseWork + 0.8 * (CountMaybe(msg.symbols) as real)
  {
    var enc := EncodeSparse(msg, draw);
    assert enc.entropyBits[..|enc.symbols|] == enc.entropyBits;
    EncodedBitsBound(msg.symbols, draw);
  }

  // ---------------------------------------------------------------------
  // Conjugate transform

  /** YES and NO swap, MAYBE is kept, anything else becomes EPSILON. */
  function Conjugate(s: State): (r: State)
    ensures r == No <==> s == Yes
    ensures r == Yes <==> s == No
    ensures r == Maybe <==> s == Maybe
    ensures r == Epsilon <==> s == Epsilon
  {
    match s
    case Yes => No
    case No => Yes
    case Maybe => Maybe
    case _ => Epsilon
  }

  /** `apply_isomorphism`: a new message of the same length whose states
      are conjugated and whose annotations are copied unchanged. */
  function ApplyIsomorphism(src: Message): (dst: Message)
    requires src.HasBits()
    ensures |dst.symbols| == |src.symbols| && |dst.entropyBits| == |src.symbols|
    ensures forall i :: 0 <= i < |src.symbols| ==>
              dst.symbols[i].state == Conjugate(src.symbols[i].state)
    ensures forall i :: 0 <= i < |src.symbols| ==>
              dst.symbols[i].entropy == src.symbols[i].entropy && dst.entropyBits[i] == src.entropyBits[i]
  {
    var n := |src.symbols|;
    Message(seq(n, i requires 0 <= i < n => Symbol(Conjugate(src.symbols[i].state), src.symbols[i].entropy)),
            src.entropyBits[..n])
  }

  /** Applying the transform twice restores the states and the per-symbol
      entropies for all four states, and keeps the first `length` entropy
      bits: the transform is an involution. */
  lemma IsomorphismInvolution(m: Message)
    requires m.HasBits()
    ensures ApplyIsomorphism(ApplyIsomorphism(m)) == Message(m.symbols, m.entropyBits[..|m.symbols|])
    ensures ApplyIsomorphism(ApplyIsomorphism(m)).States() == m.States()
  {
    var twice := ApplyIsomorphism(ApplyIsomorphism(m));
    assert twice.symbols == m.symbols;
  }

  /** The echo of a synced message is synced. */
  lemma IsomorphismKeepsSync(m: Message)
    requires m.Synced()
    ensures ApplyIsomorphism(m).Synced()
  {
  }

  /** The echo costs the same work: its entropy bits are the source's. */
  lemma WorkOfEcho(m: Message, baseWork: real)
    requires m.HasBits()
    ensures ApplyIsomorphism(m).HasBits()
    ensures CalculateWork(ApplyIsomorphism(m), baseWork) == CalculateWork(m, baseWork)
  {
    var e := ApplyIsomorphism(m);
    assert e.entropyBits[..|e.symbols|] == m.entropyBits[..|m.symbols|];
  }

  // ---------------------------------------------------------------------
  // Echo verification

  /** The accepted (sent, echoed) pairs: (MAYBE, MAYBE), (YES, NO), (NO, YES). */
  predicate ValidPair(s: State, e: State)
  {
    || (s == Maybe && e == Maybe)
    || (s == Yes && e == No)
    || (s == No && e == Yes)
  }

  /** The verification loop from index `i` on: 1 when every remaining
      pair is accepted, 0 at the first rejected pair. */
  function ScanPairs(sent: seq<Symbol>, echoed: seq<Symbol>, i: nat): (r: int)
    requires |sent| == |echoed| && i <= |sent|
    ensures r == 0 || r == 1
    ensures r == 1 <==> forall j :: i <= j < |sent| ==> ValidPair(sent[j].state, echoed[j].state)
    decreases |sent| - i
  {
    if i == |sent| then 1
    else
      var s := sent[i].state;
      var e := echoed[i].state;
      if s == Maybe && e == Maybe then ScanPairs(sent, echoed, i + 1)
      else if (s == Yes && e == No) || (s == No && e == Yes) then ScanPairs(sent, echoed, i + 1)
      else 0
  }

  /** `verify_echo`: 0 on a length mismatch, otherwise 1 exactly when every
      position pair is (MAYBE, MAYBE), (YES, NO) or (NO, YES). */
  function VerifyEcho(sent: Message, echoed: Message): (r: int)
    ensures r == 0 || r == 1
    ensures |sent.symbols| != |echoed.symbols| ==> r == 0
    ensures r == 1 <==> (|sent.symbols| == |echoed.symbols| &&
              forall i :: 0 <= i < |sent.symbols| ==> ValidPair(sent.symbols[i].state, echoed.symbols[i].state))
  {
    if |sent.symbols| != |echoed.symbols| then 0
    else ScanPairs(sent.symbols, echoed.symbols, 0)
  }

  /** An EPSILON on either side, or a MAYBE facing anything but MAYBE,
      fails the whole verification. */
  lemma VerifyEchoRejects(sent: Message, echoed: Message, i: nat)
    requires |sent.symbols| == |echoed.symbols| && i < |sent.symbols|
    requires || sent.symbols[i].state == Epsilon
             || echoed.symbols[i].state == Epsilon
             || (sent.symbols[i].state == Maybe) != (echoed.symbols[i].state == Maybe)
    ensures VerifyEcho(sent, echoed) == 0
  {
  }

  /** A state is accepted against its own conjugate exactly when it is not EPSILON. */
  lemma ConjugatePairValid(s: State)
    ensures ValidPair(s, Conjugate(s)) <==> s != Epsilon
  {
  }

  /** The echo of `m` verifies exactly when `m` holds no EPSILON. */
  lemma EchoVerifiesIffNoEpsilon(m: Message)
    requires m.HasBits()
    ensures VerifyEcho(m, ApplyIsomorphism(m)) == 1 <==>
              forall i :: 0 <= i < |m.symbols| ==> m.symbols[i].state != Epsilon
  {
    var e := ApplyIsomorphism(m);
    forall i | 0 <= i < |m.symbols|
      ensures ValidPair(m.symbols[i].state, e.symbols[i].state) <==> m.symbols[i].state != Epsilon
    {
      ConjugatePairValid(m.symbols[i].state);
    }
  }

  /** Soundness of the verifier: an echo verifies exactly when its states
      are the conjugates of the sent states and the sent message holds no
      EPSILON. Together with `EchoVerifiesIffNoEpsilon`, the accepted echoes
      are the transform's output, up to annotations. */
  lemma EchoVerifiesIffConjugate(sent: Message, echoed: Message)
    ensures VerifyEcho(sent, echoed) == 1 <==>
              (&& |echoed.symbols| == |sent.symbols|
               && forall i :: 0 <= i < |sent.symbols| ==>
                    sent.symbols[i].state != Epsilon && echoed.symbols[i].state == Conjugate(sent.symbols[i].state))
  {
    if |echoed.symbols| == |sent.symbols| {
      forall i | 0 <= i < |sent.symbols|
        ensures ValidPair(sent.symbols[i].state, echoed.symbols[i].state) <==>
                (sent.symbols[i].state != Epsilon && echoed.symbols[i].state == Conjugate(sent.symbols[i].state))
      {
        ConjugatePairValid(sent.symbols[i].state);
      }
    }
  }

  /** A truncated echo never verifies. */
  lemma TruncatedEchoFails(m: Message, k: nat)
    requires m.HasBits() && k < |m.symbols|
    ensures VerifyEcho(m, Message(ApplyIsomorphism(m).symbols[..k], ApplyIsomorphism(m).entropyBits[..k])) == 0
  {
  }

  // ---------------------------------------------------------------------
  // The driver's scenario

  /** The message YES, MAYBE, NO, MAYBE with 0.0 entropies and no bits. */
  function DemoMessage(): Message
  {
    Message([Symbol(Yes, 0.0), Symbol(Maybe, 0.0), Symbol(No, 0.0), Symbol(Maybe, 0.0)], [])
  }

  /** Encoding the driver's message calls the sampler twice, for the two
      MAYBEs, and stores each value in both annotations. */
  lemma DemoEncoding(draw: nat -> real)
    ensures EncodeSparse(DemoMessage(), draw) ==
      Message([Symbol(Yes, 0.0), Symbol(Maybe, draw(0)), Symbol(No, 0.0), Symbol(Maybe, draw(1))],
              [0.0, draw(0), 0.0, draw(1)])
  {
    var syms := DemoMessage().symbols;
    assert CountMaybe(syms[..1]) == 0 by {
      assert syms[..1][..0] == [];
    }
    assert CountMaybe(syms[..3]) == 1 by {
      assert syms[..3][..2] == syms[..2];
      assert syms[..2][..1] == syms[..1];
      assert syms[..1][..0] == [];
    }
  }

  /** For the driver's message: the bits are [0, e1, 0, e2] and in sync,
      the work is base + (e1 + e2) / 10, and the echo NO, MAYBE, YES,
      MAYBE verifies. */
  lemma DemoScenario(draw: nat -> real, baseWork: real)
    ensures var enc := EncodeSparse(DemoMessage(), draw);
      && enc.entropyBits == [0.0, draw(0), 0.0, draw(1)]
      && enc.Synced()
      && CalculateWork(enc, baseWork) == baseWork + (draw(0) + draw(1)) * 0.1
      && ApplyIsomorphism(enc).States() == [No, Maybe, Yes, Maybe]
      && VerifyEcho(enc, ApplyIsomorphism(enc)) == 1
  {
    DemoEncoding(draw);
    var enc := EncodeSparse(DemoMessage(), draw);
    var bits := enc.entropyBits;
    assert bits[..4] == bits;
    var b1, b2, b3 := bits[1..], bits[2..], bits[3..];
    assert b1[1..] == b2 && b2[1..] == b3 && b3[1..] == [];
    assert Sum(b3) == draw(1);
    assert Sum(b2) == draw(1);
    assert Sum(b1) == draw(0) + draw(1);
    EchoVerifiesIffNoEpsilon(enc);
  }
}

=== FILE: nsigii_py.dfy ===
/** The Python implementation of the NSIGII codec (nsiggi.py): a
    three-valued state, messages whose `entropy_bits` list grows by
    appending, the sparse encoder with its 4-bit pattern matrix, the
    conjugate transform and the echo verifier.

    As in the C model, the entropy sampler is an oracle `draw`, where
    `draw(k)` is the value of the k-th sampler call within one encoding;
    `base_work` is an opaque real, and the final floating-point tolerance
    comparison of `verify_echo` is a predicate parameter. */
module NsigiiPy {
  import opened Numeric

  /** The `State` enumeration: there is no fourth, "channel clear", value. */
  datatype State = Yes | No | Maybe

  /** The enumeration's values: YES 1, NO 0, MAYBE -1. This records the
      declaration only: the code never computes with these values, it only
      compares enumerators. */
  function Value(s: State): (v: int)
    ensures -1 <= v <= 1
    ensures v == -1 <==> s == Maybe
    ensures v == 1 <==> s == Yes
  {
    match s
    case Yes => 1
    case No => 0
    case Maybe => -1
  }

  /** `NSIGIIMessage`: the states and the list of measured entropies; a
      newly constructed message has an empty list. */
  datatype Message = Message(data: seq<State>, entropyBits: seq<real>)

  datatype Option<T> = None | Some(value: T)

  /** A newly constructed message costs exactly the base work, whatever
      its states: nothing has been measured yet. */
  function NewMessage(data: seq<State>): (m: Message)
    ensures m.data == data
    ensures forall baseWork: real :: CalculateWork(m, baseWork) == baseWork
  {
    Message(data, [])
  }

  // ---------------------------------------------------------------------
  // Sparse encoding

  /** The matrix row emitted for each state. */
  function Pattern(s: State): (row: seq<int>)
    ensures |row| == 4
    ensures forall j :: 0 <= j < 4 ==> row[j] == 0 || row[j] == 1
  {
    match s
    case Maybe => [1, 0, 1, 0]
    case Yes => [1, 1, 0, 0]
    case No => [0, 0, 1, 1]
  }

  /** Reads a matrix row back as a state; None for a row no state emits. */
  function StateOfPattern(row: seq<int>): (s: Option<State>)
    ensures s.Some? ==> Pattern(s.value) == row
  {
    if row == [1, 0, 1, 0] then Some(Maybe)
    else if row == [1, 1, 0, 0] then Some(Yes)
    else if row == [0, 0, 1, 1] then Some(No)
    else None
  }

  /** Different states get different rows, so a row names its state. */
  lemma PatternRoundTrip(s: State)
    ensures StateOfPattern(Pattern(s)) == Some(s)
  {
  }

  /** Number of MAYBE states, counted from the back. */
  function CountMaybe(data: seq<State>): nat
  {
    if data == [] then 0
    else CountMaybe(data[..|data| - 1]) + (if data[|data| - 1] == Maybe then 1 else 0)
  }

  /** The result of `encode_sparse`: the returned matrix, and the message
      with its extended `entropy_bits`. */
  datatype Encoding = Encoding(matrix: seq<seq<int>>, message: Message)

  /** The rows the encoding loop appends to `matrix`, one per state. */
  function PatternRows(data: seq<State>): (rows: seq<seq<int>>)
    ensures |rows| == |data|
    ensures forall i :: 0 <= i < |data| ==> rows[i] == Pattern(data[i])
  {
    if data == [] then []
    else PatternRows(data[..|data| - 1]) + [Pattern(data[|data| - 1])]
  }

  /** The values the encoding loop appends to `entropy_bits`: 0.0 for YES
      and NO, and for the MAYBE at index i the sampler's call number
      "MAYBEs before i". */
  function SampledBits(data: seq<State>, draw: nat -> real): (bits: seq<real>)
    ensures |bits| == |data|
    ensures forall i :: 0 <= i < |data| && data[i] != Maybe ==> bits[i] == 0.0
    ensures forall i :: 0 <= i < |data| && data[i] == Maybe ==> bits[i] == draw(CountMaybe(data[..i]))
  {
    if data == [] then []
    else
      var n := |data| - 1;
      assert forall i :: 0 <= i < n ==> data[..n][..i] == data[..i];
      var bit := if data[n] == Maybe then draw(CountMaybe(data[..n])) else 0.0;
      SampledBits(data[..n], draw) + [bit]
  }

  /** `encode_sparse`: one pattern row per state, and exactly `len(data)`
      values appended to the existing `entropy_bits`, 0.0 for YES and NO
      and a fresh sampler value for each MAYBE. */
  function EncodeSparse(m: Message, draw: nat -> real): (r: Encoding)
    ensures |r.matrix| == |m.data|
    ensures forall i :: 0 <= i < |m.data| ==> r.matrix[i] == Pattern(m.data[i])
    ensures r.message.data == m.data
    ensures |r.message.entropyBits| == |m.entropyBits| + |m.data|
    ensures r.message.entropyBits[..|m.entropyBits|] == m.entropyBits
    ensures forall i :: 0 <= i < |m.data| && m.data[i] != Maybe ==>
              r.message.entropyBits[|m.entropyBits| + i] == 0.0
    ensures forall i :: 0 <= i < |m.data| && m.data[i] == Maybe ==>
              r.message.entropyBits[|m.entropyBits| + i] == draw(CountMaybe(m.data[..i]))
  {
    Encoding(PatternRows(m.data), Message(m.data, m.entropyBits + SampledBits(m.data, draw)))
  }

  /** The returned matrix determines the message's states. */
  lemma MatrixDeterminesData(m: Message, draw: nat -> real)
    ensures var matrix := EncodeSparse(m, draw).matrix;
      |matrix| == |m.data| &&
      forall i :: 0 <= i < |m.data| ==> StateOfPattern(matrix[i]) == Some(m.data[i])
  {
  }

  /** On a newly constructed message, encoding leaves exactly one entropy
      value per state. */
  lemma EncodeFreshMessage(data: seq<State>, draw: nat -> real)
    ensures |EncodeSparse(NewMessage(data), draw).message.entropyBits| == |data|
    ensures forall i :: 0 <= i < |data| ==>
              EncodeSparse(NewMessage(data), draw).message.entropyBits[i] ==
              (if data[i] == Maybe then draw(CountMaybe(data[..i])) else 0.0)
  {
  }

  // ---------------------------------------------------------------------
  // Work

  /** `calculate_work`: `baseWork` is `force * distance * cos(30°)`, kept
      opaque; the whole `entropy_bits` list is summed, then scaled by 0.1. */
  function CalculateWork(m: Message, baseWork: real): real
  {
    baseWork + Sum(m.entropyBits) * 0.1
  }

  // ---------------------------------------------------------------------
  // Conjugate transform

  /** YES and NO swap; the remaining value, MAYBE, is kept. */
  function Conjugate(s: State): (r: State)
    ensures r == No <==> s == Yes
    ensures r == Yes <==> s == No
    ensures r == Maybe <==> s == Maybe
  {
    match s
    case Yes => No
    case No => Yes
    case Maybe => Maybe  // the `else` branch: MAYBE is sacred
  }

  /** `apply_isomorphism`: a newly constructed message of conjugated
      states, whose `entropy_bits` therefore starts out empty. */
  function ApplyIsomorphism(m: Message): (r: Message)
    ensures |r.data| == |m.data|
    ensures forall i :: 0 <= i < |m.data| ==> r.data[i] == Conjugate(m.data[i])
    ensures r.entropyBits == []
  {
    NewMessage(seq(|m.data|, i requires 0 <= i < |m.data| => Conjugate(m.data[i])))
  }

  /** Transforming twice gives back the states, but the entropy values of
      the original are gone. */
  lemma IsomorphismInvolution(m: Message)
    ensures ApplyIsomorphism(ApplyIsomorphism(m)) == NewMessage(m.data)
  {
    assert ApplyIsomorphism(ApplyIsomorphism(m)).data == m.data;
  }

  // ---------------------------------------------------------------------
  // Echo verification

  /** The accepted (sent, echoed) pairs: (MAYBE, MAYBE), (YES, NO), (NO, YES). */
  predicate ValidPair(s: State, e: State)
  {
    || (s == Maybe && e == Maybe)
    || (s == Yes && e == No)
    || (s == No && e == Yes)
  }

  /** The state-pair loop over `zip(sent, echoed)`: stops with false at
      the first rejected pair. */
  function PairsPass(sent: seq<State>, echoed: seq<State>): (ok: bool)
    requires |sent| == |echoed|
    ensures ok <==> forall i :: 0 <= i < |sent| ==> ValidPair(sent[i], echoed[i])
  {
    if sent == [] then true
    else if sent[0] == Maybe && echoed[0] == Maybe then PairsPass(sent[1..], echoed[1..])
    else if (sent[0] == Yes && echoed[0] == No) || (sent[0] == No && echoed[0] == Yes) then
      PairsPass(sent[1..], echoed[1..])
    else false
  }

  /** `verify_echo`: False on a length mismatch or at the first rejected
      pair; only when every pair passes is the work of both messages
      compared, by `tolerable` applied to the absolute work difference. */
  function VerifyEcho(sent: Message, echoed: Message, baseWork: real, tolerable: real -> bool): (ok: bool)
    ensures |sent.data| != |echoed.data| ==> !ok
    ensures ok <==> (&& |sent.data| == |echoed.data|
                     && (forall i :: 0 <= i < |sent.data| ==> ValidPair(sent.data[i], echoed.data[i]))
                     && tolerable(Abs(CalculateWork(sent, baseWork) - CalculateWork(echoed, baseWork))))
  {
    if |sent.data| != |echoed.data| then false
    else if !PairsPass(sent.data, echoed.data) then false
    else tolerable(Abs(CalculateWork(sent, baseWork) - CalculateWork(echoed, baseWork)))
  }

  /** Every message passes the state-pair check against its own echo: the
      enumeration has no value outside YES, NO and MAYBE. */
  lemma EchoPassesPairCheck(m: Message)
    ensures PairsPass(m.data, ApplyIsomorphism(m).data)
  {
  }

  /** Soundness of the state-pair check: an echo of the same length passes
      exactly when its states are the conjugates of the sent states. */
  lemma PairsPassIffConjugate(sent: Message, echoed: Message)
    ensures (|sent.data| == |echoed.data| && PairsPass(sent.data, echoed.data)) <==>
            echoed.data == ApplyIsomorphism(sent).data
  {
  }

  /** Against its own echo, whose entropy list is empty, a message is
      judged by the tolerance alone, on a work difference of a tenth of
      its summed entropy. */
  lemma VerifyEchoOfIsomorphism(m: Message, baseWork: real, tolerable: real -> bool)
    ensures VerifyEcho(m, ApplyIsomorphism(m), baseWork, tolerable) == tolerable(Abs(Sum(m.entropyBits) * 0.1))
  {
    var e := ApplyIsomorphism(m);
    assert CalculateWork(e, baseWork) == baseWork;
    assert CalculateWork(m, baseWork) - CalculateWork(e, baseWork) == Sum(m.entropyBits) * 0.1;
  }

  /** A message whose entropy list is all 0.0 (nothing sampled yet, or no
      MAYBE) has the same work as its echo. */
  lemma UnsampledEchoSameWork(m: Message, baseWork: real)
    requires forall i :: 0 <= i < |m.entropyBits| ==> m.entropyBits[i] == 0.0
    ensures CalculateWork(m, baseWork) == CalculateWork(ApplyIsomorphism(m), baseWork)
  {
    SumZeros(m.entropyBits);
  }
}

=== FILE: numeric.dfy ===
/** Numeric helpers shared by the C and the Python models: bytes, sums of
    reals and naturals, and absolute value. Reals are exact mathematical
    reals here; the source's IEEE doubles are not modelled bit for bit. */
module Numeric {

  /** An unsigned 8-bit value, as delivered by the randomness source. */
  newtype byte = x: int | 0 <= x < 256

  /** Sum of a sequence of reals, from the front. */
  function Sum(xs: seq<real>): real
  {
    if xs == [] then 0.0 else xs[0] + Sum(xs[1..])
  }

  /** Sum of a sequence of naturals, from the front. */
  function SumNat(xs: seq<nat>): nat
  {
    if xs == [] then 0 else xs[0] + SumNat(xs[1..])
  }

  function Abs(x: real): (r: real)
    ensures r >= 0.0
    ensures r == x || r == -x
  {
    if x < 0.0 then -x else x
  }

  lemma {:induction false} SumAppend(xs: seq<real>, ys: seq<real>)
    ensures Sum(xs + ys) == Sum(xs) + Sum(ys)
  {
    if xs == [] {
      assert xs + ys == ys;
    } else {
      assert (xs + ys)[1..] == xs[1..] + ys;
      SumAppend(xs[1..], ys);
    }
  }

  /** Taking a sum in order, one element at a time from the back, gives the same total. */
  lemma SumSnoc(xs: seq<real>)
    requires xs != []
    ensures Sum(xs) == Sum(xs[..|xs| - 1]) + xs[|xs| - 1]
  {
    var n := |xs| - 1;
    assert xs == xs[..n] + [xs[n]];
    SumAppend(xs[..n], [xs[n]]);
  }

  /** Sum of a sequence of zeros. */
  lemma {:induction false} SumZeros(xs: seq<real>)
    requires forall i :: 0 <= i < |xs| ==> xs[i] == 0.0
    ensures Sum(xs) == 0.0
  {
    if xs != [] {
      SumZeros(xs[1..]);
    }
  }

  /** Replacing one entry of a sequence of naturals moves its sum by the difference. */
  lemma {:induction false} SumNatUpdate(xs: seq<nat>, i: nat, v: nat)
    requires i < |xs|
    ensures SumNat(xs[i := v]) + xs[i] == SumNat(xs) + v
  {
    if i == 0 {
      assert xs[i := v][1..] == xs[1..];
    } else {
      assert xs[i := v][1..] == xs[1..][i - 1 := v];
      SumNatUpdate(xs[1..], i - 1, v);
    }
  }

  lemma {:induction false} SumNatZeros(n: nat)
    ensures SumNat(seq(n, _ => 0)) == 0
  {
    if n > 0 {
      assert seq(n, _ => 0)[1..] == seq(n - 1, _ => 0);
      SumNatZeros(n - 1);
    }
  }
}
